=== FILE: README.md ===
# Product service: the product collection as a state machine

This project models the product-catalog microservice's five product handlers
(`GET /`, `GET /<id>`, `POST /`, `PUT /`, `DELETE /<id>` in `app.py`) over its
MongoDB `products` collection, and proves what each handler does to the
collection and what it answers.

- `document.dfy` (module `Document`): a product document is a JSON object,
  `map<string, Value>`, whose `id` field holds an integer, as every read
  returns it: with the database's own `_id` projected out. Values other than
  integers are opaque tokens compared by equality. `SetFields` is the `$set`
  update operator on top-level fields, as the projected document shows it.
- `collection.dfy` (module `Collection`): the collection is a sequence of
  documents in natural order, taken to be insertion order. The calls the handlers make are
  small functions over it. `FirstMatch`/`FindOne` is `find_one({"id": v})`.
  `Highest` is `find_one(sort=[("id", -1)])`. `InsertOne` appends.
  `UpdateOne` is `update_one` with `$set` and reports `matched_count`.
  `DeleteOne` is `delete_one` and reports `deleted_count`. `UniqueIds` and
  `PositiveIds` are the collection invariants.
- `catalog.dfy` (module `Catalog`): each handler is a pure transition from a
  collection to a `Step`, a reply and the collection afterwards. A reply is
  200 with a product, 200 with a list, 200 with an empty body, 400
  "Invalid input" or 404 "Product not found". The request body is `NoBody`
  or a JSON object. `NoBody` is `request.json` being `None`. With current
  Flask that happens only for a JSON `null` body. A request without a JSON
  content type is refused by Flask itself (400 or 415) before the handler's
  test runs. Python's truthiness of `request.json` is `Truthy`.
  `Handle` and `Run` serve one request and a sequence of requests.
- `invariants.dfy` (module `Invariants`): per-handler facts, the
  invariant that ids stay unique and positive under any request sequence,
  and the reuse of a deleted highest id by the next `POST /`.
- `view.dfy` (module `CatalogView`): the collection read as a map from
  product id to product, which is how clients address it. Each handler is
  proved to act on that map as a get, list, insert, merge or remove. The
  module also has the read-after-write round trips.

Route ids are `nat`, because Flask's `<int:...>` converter accepts only
unsigned digits. Ids inside request bodies may be any value the model can
express. In the model every stored document has an integer `id` and no
`_id`, so a body id that is an opaque value matches no stored document.
Stored documents without an integer `id` and the database's richer
matching of body ids are not modelled; see "## Left out".

Two facts about the code shape the model:
- `PUT /` merges the body into the stored document with `$set`; it does
  not replace it.
- The startup seeding inserts nothing. Its list literal is never bound to
  a name, so `initial_products` raises `NameError` whenever the collection
  is empty. `seed_data()` runs unguarded when the module loads, so the
  process does not start at all on an empty collection. The first
  collection any handler sees was therefore filled outside the service, and
  nothing in the service makes its ids unique or positive.

## Model

| member | source | states |
|---|---|---|
| Document.SetFields | app.py:174-180 | `$set` writes exactly the body's fields other than `_id`, keeps every other field of the document, adds nothing else, and the re-read document has no `_id` |
| Collection.FirstMatch | app.py:141 | the position found matches `{"id": v}` and no earlier document does; nothing is found exactly when no document matches |
| Collection.FindOne | app.py:141 | `find_one` by id yields a document of the collection carrying that id, and yields one exactly when such a document exists |
| Collection.Highest | app.py:153 | the sorted `find_one` yields nothing exactly on an empty collection, else a document whose id is at least every other id |
| Collection.InsertOne | app.py:159 | `insert_one` keeps the existing documents in order and adds the new one as the single extra document at the end |
| Collection.UpdateOne | app.py:174-176 | `matched_count` is 0 exactly when no document carries the id, and then nothing changes; otherwise it is 1, the first match becomes its `$set` merge, and every other document stays the same |
| Collection.DeleteOne | app.py:187-190 | `deleted_count` is 0 exactly when no document carries the id, and then nothing changes; otherwise it is 1 and exactly the first match is cut out |
| Catalog.Truthy | app.py:150-168 | the `not request.json` test at lines 150 and 168: a body is truthy exactly when it is a JSON object with at least one field, so no body and `{}` are falsy |
| Catalog.ReplyCodes | app.py:150-193 | a falsy `POST /` body, and a falsy or id-less `PUT /` body, answer 400 "Invalid input"; `PUT /`, `GET /<id>` and `DELETE /<id>` answer 404 "Product not found" exactly when no document carries the id; a successful delete answers 200 with an empty body |
| Catalog.Handle | app.py:132-193 | the route table: `GET /` and `GET /<id>` never change the collection, `PUT /` keeps its count, and no request changes the count by more than one |
| Catalog.GetProducts | app.py:132-135 | lists every document in natural order and leaves the collection unchanged |
| Catalog.GetProduct | app.py:139-145 | answers a stored product with the requested id, or 404 exactly when no document has that id; never changes the collection |
| Catalog.NextId | app.py:152-154 | the new id is 1 on an empty collection; otherwise it is one more than some stored id and exceeds every stored id |
| Catalog.AddProduct | app.py:148-163 | a falsy body answers 400 and changes nothing; otherwise it answers the body's fields with `id` set to the next id and without `_id`, and the collection gains exactly that document at the end |
| Catalog.UpdateProduct | app.py:166-181 | a falsy body or one without `id` answers 400 and changes nothing; 404 exactly when no document carries the body's id, with the collection unchanged; the count never changes and the reply is 400, 404 or a product |
| Catalog.DeleteProduct | app.py:184-193 | 404 exactly when no document has the id, with the collection unchanged; otherwise an empty 200 and one document with that id cut out |
| Invariants.AddOverridesClientId | app.py:152-157 | a client-supplied `id` is overwritten by the next id, which exceeds every existing id |
| Invariants.UpdateProductFound | app.py:171-181 | on a matching id the target gets exactly the body's fields other than `_id` overwritten and keeps its other fields, every other document is untouched, and the reply is the merged document as re-read |
| Invariants.UpdateKeepsIds | app.py:172-174 | `PUT /` never changes any document's id, whether it matched, missed or was rejected |
| Invariants.AddKeepsInvariant | app.py:152-159 | adding keeps ids pairwise unique and positive |
| Invariants.UpdateKeepsInvariant | app.py:171-174 | updating keeps ids pairwise unique and positive |
| Invariants.RemoveAtKeepsUnique | app.py:187 | cutting one document out of a collection keeps the remaining ids pairwise unique |
| Invariants.DeleteKeepsInvariant | app.py:184-193 | deleting keeps ids pairwise unique and positive |
| Invariants.HandleKeepsInvariant | app.py:132-193 | every product request keeps ids pairwise unique and positive |
| Invariants.RunKeepsInvariant | app.py:132-193 | any sequence of product requests keeps ids pairwise unique and positive |
| Invariants.HandleKeepsUnique | app.py:132-193 | every product request keeps ids pairwise unique, whatever their sign |
| Invariants.RunKeepsUnique | app.py:132-193 | any sequence of product requests keeps ids pairwise unique, whatever their sign |
| Invariants.ReachableHasInvariant | app.py:152-154 | every collection built from an empty one by the handlers has unique ids, all at least 1 |
| Invariants.DeleteRemovesExactlyOne | app.py:187-193 | with unique ids, a successful delete removes one document, no document with that id remains, and every other document is kept |
| Invariants.NextIdBelow | app.py:152-154 | when every id is below `top`, the next id is at most `top`, and equals it exactly when `top - 1` is an id or the collection is empty and `top` is 1 |
| Invariants.DeleteHighestLowersNextId | app.py:152-190 | deleting the product with the highest id lowers the next id to at most that id, and exactly to it when the id one below is taken or nothing is left and the deleted id was 1 |
| Invariants.DeleteHighestThenAddReusesId | app.py:152-193 | `DELETE /<highest id>` then `POST /` assigns an id no larger than the deleted one, and gives the deleted id out again exactly in the cases above |
| CatalogView.GetProductReadsView | app.py:139-145 | with unique ids, `GET /<id>` answers the catalog entry for the id, or 404 when the id is not in the catalog |
| CatalogView.GetProductsListsView | app.py:132-135 | with unique ids, `GET /` lists exactly the catalog's products |
| CatalogView.AddProductExtendsView | app.py:148-163 | `POST /` adds the returned product to the catalog under an id that was not in it, and leaves every other entry alone |
| CatalogView.UpdateProductMergesIntoView | app.py:166-181 | with unique ids, `PUT /` replaces the entry for the id by its `$set` merge with the body; on an id outside the catalog it answers 404 and leaves the catalog alone |
| CatalogView.DeleteProductShrinksView | app.py:184-193 | with unique ids, `DELETE /<id>` removes exactly that id from the catalog |
| CatalogView.AddThenGet | app.py:139-163 | `GET /<id>` on the id `POST /` just assigned answers the product that `POST /` answered |
| CatalogView.UpdateThenGet | app.py:139-181 | after a successful `PUT /`, `GET /<id>` answers the product that `PUT /` answered |
| CatalogView.DeleteThenGet | app.py:139-193 | with unique ids, `GET /<id>` after `DELETE /<id>` answers 404 |

## Left out

- Flask plumbing is not modelled: routing, JSON marshalling, CORS, dotenv loading, the health endpoint and process startup (app.py:1-12, 126-129, 209-213). None of it has product logic.
- The `MongoClient` connection is not modelled. The database's own `_id` key is modelled by its absence: a document is what every read returns, with `_id` projected out (app.py:134, 141, 180), and `POST /` deletes it from its reply (app.py:162). So a client-sent `_id` never appears in any reply, as in the source.
- The database's unique, immutable `_id` is not modelled. A `POST /` body whose `_id` is already taken fails with a duplicate-key error (500), where the model stores the product. A `PUT /` body whose `_id` differs from the stored one makes `$set` fail (500), where the model drops the `_id` and merges the other fields.
- Document.Doc: every stored document is taken to carry an integer `id`. The service only ever stores integer ids, so this is an assumption about the collection loaded from outside the service at startup, like the one under Invariants.RunKeepsInvariant. The source's behaviour on documents the model cannot express: a stored `id` that is a string, boolean, object or ObjectId sorts above every number, so the sorted `find_one` at app.py:153 returns it, `last_product['id'] + 1` at app.py:154 raises `TypeError`, and every `POST /` answers 500; a non-empty collection in which no document has an `id` makes app.py:154 raise `KeyError`, so `POST /` answers 500; a stored floating-point id such as 2.5 makes `POST /` assign 3.5; a `PUT /` body with `"id": null` matches a stored document without `id` and updates it, where the model answers 404.
- Seeding (app.py:21-122) is not modelled. It raises `NameError` on an empty collection and stops the process from starting, so the model starts from whatever collection it is given.
- Invariants.RunKeepsInvariant: its `requires Invariant(s)` is an assumption about the collection loaded from outside the service at startup; the service never establishes it. The empty base case of `Invariants.ReachableHasInvariant` arises in the source only after deletes have emptied a running collection, not at startup. Uniqueness alone needs no assumption on the ids' sign: Invariants.RunKeepsUnique requires only unique ids.
- Collection.FirstMatch: takes natural order to be insertion order. The database applies `find_one`, `update_one` and `delete_one` to the first match in natural order, but it does not promise that natural order is insertion order. The assumption decides the order of `GET /` and which document is hit when several share an id, as an outside-loaded collection may have.
- The image route (app.py:196-207) is not modelled. It is a thin wrapper over the blob-storage client.
- Field values other than integers are opaque, including the floating-point `price`.
- Catalog.UpdateProduct: a body id that is a floating-point number or an object is not modelled. The database matches a float such as `3.0` against a stored `3`. It reads an object such as `{"$gt": 0}` as a query operator that can match any document. The model answers 404 and leaves the collection unchanged in both cases. The source instead updates the matched document and may then store the float or object as its id, or fail with a server error.
- Invariants.UpdateKeepsIds: holds for the modelled body ids only. With a float or operator-object body id, as described in the line above, the source can change a stored id.
- Request bodies that are JSON but not objects are not modelled, for example a list or a number. Flask's own responses to malformed JSON and to a missing or non-JSON content type (400 or 415) are not modelled either.
- Races between the two round trips of `POST /` (app.py:153-159) and of `PUT /` (app.py:174-180) are not modelled. Each handler is one atomic step.
- Catalog.NextId: integers are unbounded in the model. The database's document encoding accepts only 64-bit integers, and any integer outside that range makes the driver raise an error, which the source answers with a server error (500). This is not modelled anywhere. An add after id 2^63-1 fails in the source.
- Catalog.GetProduct: a route id of 2^63 or more is not modelled. Flask's converter accepts any digit string, the driver fails to encode the filter at app.py:141, and the source answers 500. The model answers 404.
- Catalog.DeleteProduct: the same holds for a route id of 2^63 or more at app.py:187. The source answers 500 where the model answers 404.
- Catalog.AddProduct: an integer field value outside the 64-bit range in a `POST /` body is not modelled. `insert_one` fails with a server error in the source, while the model stores the value.
- Catalog.UpdateProduct: the 64-bit limit is not modelled here either. A body id or integer field value outside the range makes `update_one` fail with a server error, while the model answers 404 or stores the value.
- Document.SetFields: treats every body key other than `_id` as a top-level field. Dotted paths and `$`-prefixed keys, which `$set` interprets specially, are not modelled. A body `_id` is dropped; the database accepts it only when it equals the stored `_id`.
- Collection.UpdateOne: defined only for `$set` documents whose `id`, if present, equals the filter's value. That is the only shape the update handler issues.
- Collection.Highest: the database leaves the order of equal ids unspecified, and the model picks the earlier document. Only the id of the result is used, and that is the same whichever document is picked.
- The order of fields within a JSON object is not modelled. Documents are maps.
- Database errors are not modelled. A failing database call propagates as the framework's default error response.

=== FILE: catalog.dfy ===
/**
 The five product handlers of the service, each one atomic step from a
 collection to a reply and the collection afterwards.
 */
module Catalog {
  import opened Document
  import opened Collection

  /** `request.json` as a handler sees it: no JSON body, or a JSON object. */
  datatype Body = NoBody | Json(fields: Fields)

  /** Python truthiness of `request.json`: `None` and `{}` are falsy, an
      object with at least one field is truthy. */
  predicate Truthy(b: Body)
    ensures Truthy(b) <==> b.Json? && exists k :: k in b.fields
  {
    assert b.Json? && |b.fields| > 0 ==> exists k :: k in b.fields by {
      if b.Json? && |b.fields| > 0 {
        var k :| k in b.fields.Keys;
      }
    }
    b.Json? && |b.fields| > 0
  }

  /** What a handler answers. */
  datatype Reply =
    | ProductReply(product: Doc)      // 200, the product as JSON
    | ListReply(products: seq<Doc>)   // 200, a JSON array of products
    | NullReply                       // 200, JSON `null`
    | EmptyReply                      // 200, empty body
    | InvalidInput                    // 400 "Invalid input"
    | NotFound                        // 404 "Product not found"
  {
    function Status(): nat {
      if InvalidInput? then 400 else if NotFound? then 404 else 200
    }

    /** The plain-text body of the error replies. */
    function Message(): string {
      if InvalidInput? then "Invalid input"
      else if NotFound? then "Product not found"
      else ""
    }
  }

  datatype Step = Step(reply: Reply, store: Store)

  /** The status codes and texts the handlers answer with: 400
      "Invalid input" for a falsy body or an update body without `id`, 404
      "Product not found" when no document carries the id, and 200 with an
      empty body for a successful delete. */
  lemma ReplyCodes(s: Store, body: Body, productId: nat)
    ensures !Truthy(body) ==>
      var r := AddProduct(s, body).reply;
      r.Status() == 400 && r.Message() == "Invalid input"
    ensures Truthy(body) ==> AddProduct(s, body).reply.Status() == 200
    ensures !Truthy(body) || IdField !in body.fields ==>
      var r := UpdateProduct(s, body).reply;
      r.Status() == 400 && r.Message() == "Invalid input"
    ensures Truthy(body) && IdField in body.fields ==>
      var r := UpdateProduct(s, body).reply;
      (r.Status() == 404 && r.Message() == "Product not found") <==>
        forall j :: 0 <= j < |s| ==> !HasId(s[j], body.fields[IdField])
    ensures var r := GetProduct(s, productId).reply;
      (r.Status() == 404 && r.Message() == "Product not found") <==>
        forall j :: 0 <= j < |s| ==> Id(s[j]) != productId
    ensures var r := GetProduct(s, productId).reply;
      r.Status() == 200 || r.Status() == 404
    ensures var r := DeleteProduct(s, productId).reply;
      (r.Status() == 404 && r.Message() == "Product not found") <==>
        forall j :: 0 <= j < |s| ==> Id(s[j]) != productId
    ensures var r := DeleteProduct(s, productId).reply;
      r.Status() == 404 || (r.Status() == 200 && r.Message() == "")
  {
    var add := AddProduct(s, body).reply;
    assert add.InvalidInput? <==> !Truthy(body);
    var upd := UpdateProduct(s, body).reply;
    assert upd.NotFound? <==> upd.Status() == 404;
    var get := GetProduct(s, productId).reply;
    assert get.NotFound? <==> get.Status() == 404;
    var del := DeleteProduct(s, productId).reply;
    assert del.NotFound? <==> del.Status() == 404;
  }

  /** `GET /`: every product, in natural order. */
  function GetProducts(s: Store): (r: Step)
    ensures r.store == s
    ensures r.reply.ListReply?
    ensures |r.reply.products| == |s|
    ensures forall j :: 0 <= j < |s| ==> r.reply.products[j] == s[j]
  {
    Step(ListReply(s), s)
  }

  /** `GET /<id>`. The route's integer converter admits only non-negative ids. */
  function GetProduct(s: Store, productId: nat): (r: Step)
    ensures r.store == s
    ensures r.reply.ProductReply? || r.reply.NotFound?
    ensures r.reply.NotFound? <==> forall j :: 0 <= j < |s| ==> Id(s[j]) != productId
    ensures r.reply.ProductReply? ==> r.reply.product in s && Id(r.reply.product) == productId
  {
    match FindOne(s, IntVal(productId))
    case Some(d) => Step(ProductReply(d), s)
    case None => Step(NotFound, s)
  }

  /** The id `POST /` assigns: one more than the largest id, or 1 on an
      empty collection. */
  function NextId(s: Store): (r: int)
    ensures |s| == 0 ==> r == 1
    ensures |s| > 0 ==> exists j :: 0 <= j < |s| && Id(s[j]) == r - 1
    ensures forall j :: 0 <= j < |s| ==> Id(s[j]) < r
  {
    match Highest(s)
    case None => 1
    case Some(i) => Id(s[i]) + 1
  }

  /** `POST /`: store the submitted object under a fresh id, overriding any
      id the client sent, and answer the stored object without `_id`. */
  function AddProduct(s: Store, body: Body): (r: Step)
    ensures !Truthy(body) ==> r == Step(InvalidInput, s)
    ensures Truthy(body) ==> r.reply.ProductReply?
    ensures Truthy(body) ==>
      var p := r.reply.product;
      && Id(p) == NextId(s)
      && p.Keys == (body.fields.Keys - {DbIdField}) + {IdField}
      && DbIdField !in p
      && (forall k :: k in body.fields && k != IdField && k != DbIdField ==> p[k] == body.fields[k])
      && |r.store| == |s| + 1
      && r.store[..|s|] == s
      && r.store[|s|] == p
  {
    if !Truthy(body) then Step(InvalidInput, s)
    else
      var newProduct := (body.fields - {DbIdField})[IdField := IntVal(NextId(s))];
      Step(ProductReply(newProduct), InsertOne(s, newProduct))
  }

  /** `PUT /`: merge the submitted fields into the product whose id the
      body names, then answer the product as re-read from the collection. */
  function UpdateProduct(s: Store, body: Body): (r: Step)
    ensures !Truthy(body) || IdField !in body.fields ==> r == Step(InvalidInput, s)
    ensures r.reply.InvalidInput? || r.reply.NotFound? || r.reply.ProductReply?
    ensures r.reply.NotFound? <==>
      Truthy(body) && IdField in body.fields &&
      forall j :: 0 <= j < |s| ==> !HasId(s[j], body.fields[IdField])
    ensures r.reply.NotFound? ==> r.store == s
    ensures |r.store| == |s|
  {
    if !Truthy(body) || IdField !in body.fields then Step(InvalidInput, s)
    else
      var target := body.fields[IdField];
      var u := UpdateOne(s, target, body.fields);
      if u.matchedCount == 0 then Step(NotFound, u.store)
      else
        var i := FirstMatch(s, target).value;
        assert HasId(u.store[i], target);
        match FindOne(u.store, target)
        case Some(d) => Step(ProductReply(d), u.store)
        case None => Step(NullReply, u.store)
  }

  /** `DELETE /<id>`. */
  function DeleteProduct(s: Store, productId: nat): (r: Step)
    ensures r.reply.EmptyReply? || r.reply.NotFound?
    ensures r.reply.NotFound? <==> forall j :: 0 <= j < |s| ==> Id(s[j]) != productId
    ensures r.reply.NotFound? ==> r.store == s
    ensures r.reply.EmptyReply? ==>
      exists i :: 0 <= i < |s| && Id(s[i]) == productId && r.store == s[..i] + s[i + 1..]
  {
    var d := DeleteOne(s, IntVal(productId));
    if d.deletedCount == 0 then Step(NotFound, d.store)
    else Step(EmptyReply, d.store)
  }

  /** One HTTP request against the product routes. */
  datatype Request =
    | ListAll
    | GetOne(productId: nat)
    | Create(body: Body)
    | Modify(body: Body)
    | Remove(productId: nat)

  /** Route a request to its handler. Reads never change the collection,
      and no request changes its count by more than one. */
  function Handle(s: Store, q: Request): (r: Step)
    ensures q.ListAll? || q.GetOne? ==> r.store == s
    ensures q.Modify? ==> |r.store| == |s|
    ensures |s| <= |r.store| + 1 && |r.store| <= |s| + 1
  {
    match q
    case ListAll => GetProducts(s)
    case GetOne(k) => GetProduct(s, k)
    case Create(b) => AddProduct(s, b)
    case Modify(b) => UpdateProduct(s, b)
    case Remove(k) => DeleteProduct(s, k)
  }

  /** The collection after serving `qs` one after another. */
  function Run(s: Store, qs: seq<Request>): Store
    decreases |qs|
  {
    if |qs| == 0 then s else Run(Handle(s, qs[0]).store, qs[1..])
  }
}

=== FILE: collection.dfy ===
/**
 The `products` collection as a sequence of documents in natural
 (insertion) order, with the documented semantics of the four collection
 calls the handlers make: `find_one` by id, `find_one` sorted by id
 descending, `insert_one`, `update_one` with `$set` and `delete_one`.
 */
module Collection {
  import opened Document

  type Store = seq<Doc>

  /** Position of the first document matching `{"id": v}`: the document
      `find_one`, `update_one` and `delete_one` act on. */
  function FirstMatch(s: Store, v: Value): (r: Option<nat>)
    ensures r.None? <==> forall j :: 0 <= j < |s| ==> !HasId(s[j], v)
    ensures r.Some? ==> r.value < |s| && HasId(s[r.value], v)
    ensures r.Some? ==> forall j :: 0 <= j < r.value ==> !HasId(s[j], v)
  {
    if |s| == 0 then None
    else if HasId(s[0], v) then Some(0)
    else match FirstMatch(s[1..], v)
      case None => None
      case Some(i) => Some(i + 1)
  }

  /** `find_one({"id": v})`. */
  function FindOne(s: Store, v: Value): (r: Option<Doc>)
    ensures r.Some? <==> exists j :: 0 <= j < |s| && HasId(s[j], v)
    ensures r.Some? ==> r.value in s && HasId(r.value, v)
  {
    match FirstMatch(s, v)
    case None => None
    case Some(i) => Some(s[i])
  }

  /** `find_one(sort=[("id", -1)])`: the position of a document whose id is
      the largest in the collection, or nothing when it is empty. Ties go
      to the earlier document; only the id of the result is ever used. */
  function Highest(s: Store): (r: Option<nat>)
    ensures r.None? <==> |s| == 0
    ensures r.Some? ==> r.value < |s|
    ensures r.Some? ==> forall j :: 0 <= j < |s| ==> Id(s[j]) <= Id(s[r.value])
  {
    if |s| == 0 then None
    else match Highest(s[1..])
      case None => Some(0)
      case Some(i) => if Id(s[0]) < Id(s[i + 1]) then Some(i + 1) else Some(0)
  }

  /** `insert_one(d)`: the document joins the end of the natural order. */
  function InsertOne(s: Store, d: Doc): (r: Store)
    ensures |r| == |s| + 1
    ensures r[..|s|] == s && r[|s|] == d
  {
    s + [d]
  }

  datatype UpdateResult = UpdateResult(matchedCount: nat, store: Store)

  /** `update_one({"id": v}, {"$set": fields})`. The `$set` document may
      carry `id` only with the filter's own value, which is how the update
      handler calls it. */
  function UpdateOne(s: Store, v: Value, fields: Fields): (r: UpdateResult)
    requires IdField in fields ==> fields[IdField] == v
    ensures r.matchedCount <= 1
    ensures r.matchedCount == 0 <==> forall j :: 0 <= j < |s| ==> !HasId(s[j], v)
    ensures r.matchedCount == 0 ==> r.store == s
    ensures |r.store| == |s|
    ensures r.matchedCount == 1 ==>
      var i := FirstMatch(s, v).value;
      && r.store[i] == SetFields(s[i], fields)
      && forall j :: 0 <= j < |s| && j != i ==> r.store[j] == s[j]
  {
    match FirstMatch(s, v)
    case None => UpdateResult(0, s)
    case Some(i) =>
      var merged := SetFields(s[i], fields);
      assert HasIntId(merged);
      UpdateResult(1, s[i := merged])
  }

  datatype DeleteResult = DeleteResult(deletedCount: nat, store: Store)

  /** `delete_one({"id": v})`. */
  function DeleteOne(s: Store, v: Value): (r: DeleteResult)
    ensures r.deletedCount <= 1
    ensures r.deletedCount == 0 <==> forall j :: 0 <= j < |s| ==> !HasId(s[j], v)
    ensures r.deletedCount == 0 ==> r.store == s
    ensures r.deletedCount == 1 ==>
      var i := FirstMatch(s, v).value;
      r.store == s[..i] + s[i + 1..]
  {
    match FirstMatch(s, v)
    case None => DeleteResult(0, s)
    case Some(i) => DeleteResult(1, s[..i] + s[i + 1..])
  }

  /** Positions in `s` with the `i`-th document cut out. */
  lemma RemoveAtIndices(s: Store, i: nat)
    requires i < |s|
    ensures var t := s[..i] + s[i + 1..];
      && |t| == |s| - 1
      && (forall j :: 0 <= j < i ==> t[j] == s[j])
      && (forall j :: i <= j < |t| ==> t[j] == s[j + 1])
  {
  }

  /** No two documents share an id. */
  predicate UniqueIds(s: Store) {
    forall i, j :: 0 <= i < j < |s| ==> Id(s[i]) != Id(s[j])
  }

  /** Every id is at least 1, as ids assigned from an empty collection are. */
  predicate PositiveIds(s: Store) {
    forall j :: 0 <= j < |s| ==> Id(s[j]) >= 1
  }
}

=== FILE: document.dfy ===
/**
 A product document as the handlers read it back: a JSON object whose `id`
 field holds an integer, with the database's own `_id` projected out. Apart
 from `id`, field values are opaque: the handlers never inspect them, they
 only copy and compare them.
 */
module Document {

  datatype Option<+T> = None | Some(value: T)

  /** A JSON value. Integers are distinguished because product ids are
      integers; every other JSON value (a string, a floating-point price, a
      boolean, null, an array, an object) is an opaque token compared by
      equality. */
  datatype Value = IntVal(n: int) | Opaque(token: nat)

  /** A JSON object: field name to value. */
  type Fields = map<string, Value>

  /** The application-level identity field, distinct from the database's own `_id`. */
  const IdField: string := "id"

  /** The database's own key, which every read projects out. */
  const DbIdField: string := "_id"

  predicate HasIntId(f: Fields) {
    IdField in f && f[IdField].IntVal?
  }

  /** A stored product as every read returns it: an object with an integer
      `id` and without `_id`. */
  type Doc = f: Fields | HasIntId(f) && DbIdField !in f witness map["id" := IntVal(0)]

  function Id(d: Doc): int {
    d[IdField].n
  }

  /** The query filter `{"id": v}`. */
  predicate HasId(d: Doc, v: Value) {
    d[IdField] == v
  }

  /** The `$set` update operator on a top-level object, as the projected
      document shows it: every field of `fields` except `_id` is written,
      every other field of `d` is kept, and `_id` stays out of sight. */
  function SetFields(d: Doc, fields: Fields): (r: Fields)
    ensures r.Keys == d.Keys + (fields.Keys - {DbIdField})
    ensures DbIdField !in r
    ensures forall k :: k in fields && k != DbIdField ==> r[k] == fields[k]
    ensures forall k :: k in d && k !in fields ==> r[k] == d[k]
  {
    d + (fields - {DbIdField})
  }
}

=== FILE: invariants.dfy ===
/**
 What the handlers promise about one step, and the collection invariant
 they keep together: ids are pairwise unique and at least 1.
 */
module Invariants {
  import opened Document
  import opened Collection
  import opened Catalog

  /** The shape of every collection the handlers can reach from an empty one. */
  predicate Invariant(s: Store) {
    UniqueIds(s) && PositiveIds(s)
  }

  /** A client-supplied `id` on `POST /` is ignored: the stored id is the
      next id whatever the body said, and it exceeds every existing id. */
  lemma AddOverridesClientId(s: Store, body: Body)
    requires Truthy(body)
    ensures var p := AddProduct(s, body).reply.product;
      && Id(p) == NextId(s)
      && (IdField in body.fields ==> p[IdField] == IntVal(NextId(s)))
      && forall j :: 0 <= j < |s| ==> Id(s[j]) < Id(p)
  {
  }

  /** `PUT /` on an id some document carries: that document (the first one
      in natural order) gets exactly the body's fields overwritten and keeps
      the rest, no other document changes, and the reply is the merged
      document. */
  lemma UpdateProductFound(s: Store, body: Body)
    requires Truthy(body) && IdField in body.fields
    requires exists j :: 0 <= j < |s| && HasId(s[j], body.fields[IdField])
    ensures var r := UpdateProduct(s, body);
      var i := FirstMatch(s, body.fields[IdField]).value;
      && r.reply == ProductReply(r.store[i])
      && r.store[i].Keys == s[i].Keys + (body.fields.Keys - {DbIdField})
      && (forall k :: k in body.fields && k != DbIdField ==> r.store[i][k] == body.fields[k])
      && (forall k :: k in s[i] && k !in body.fields ==> r.store[i][k] == s[i][k])
      && |r.store| == |s|
      && (forall j :: 0 <= j < |s| && j != i ==> r.store[j] == s[j])
  {
    var target := body.fields[IdField];
    var i := FirstMatch(s, target).value;
    var r := UpdateProduct(s, body);
    assert r.store == UpdateOne(s, target, body.fields).store;
    assert FirstMatch(r.store, target) == Some(i) by {
      assert forall j :: 0 <= j < i ==> r.store[j] == s[j];
    }
  }

  /** No handler changes the id of a document it keeps in place. */
  lemma UpdateKeepsIds(s: Store, body: Body)
    ensures var r := UpdateProduct(s, body);
      |r.store| == |s| && forall j :: 0 <= j < |s| ==> Id(r.store[j]) == Id(s[j])
  {
  }

  lemma AddKeepsInvariant(s: Store, body: Body)
    requires Invariant(s)
    ensures Invariant(AddProduct(s, body).store)
  {
  }

  lemma UpdateKeepsInvariant(s: Store, body: Body)
    requires Invariant(s)
    ensures Invariant(UpdateProduct(s, body).store)
  {
    UpdateKeepsIds(s, body);
  }

  /** Cutting out a document keeps the other ids apart. */
  lemma RemoveAtKeepsUnique(s: Store, i: nat)
    requires UniqueIds(s) && i < |s|
    ensures UniqueIds(s[..i] + s[i + 1..])
  {
  }

  lemma DeleteKeepsInvariant(s: Store, productId: nat)
    requires Invariant(s)
    ensures Invariant(DeleteProduct(s, productId).store)
  {
  }

  lemma HandleKeepsInvariant(s: Store, q: Request)
    requires Invariant(s)
    ensures Invariant(Handle(s, q).store)
  {
    match q
    case ListAll =>
    case GetOne(_) =>
    case Create(b) => AddKeepsInvariant(s, b);
    case Modify(b) => UpdateKeepsInvariant(s, b);
    case Remove(k) => DeleteKeepsInvariant(s, k);
  }

  /** Ids stay pairwise unique and positive under any sequence of requests. */
  lemma {:induction false} RunKeepsInvariant(s: Store, qs: seq<Request>)
    requires Invariant(s)
    ensures Invariant(Run(s, qs))
    decreases |qs|
  {
    if |qs| > 0 {
      HandleKeepsInvariant(s, qs[0]);
      RunKeepsInvariant(Handle(s, qs[0]).store, qs[1..]);
    }
  }

  /** Uniqueness alone is kept without any assumption on the ids' sign, so
      it holds for a starting collection whose ids include 0 or negatives. */
  lemma HandleKeepsUnique(s: Store, q: Request)
    requires UniqueIds(s)
    ensures UniqueIds(Handle(s, q).store)
  {
    match q
    case ListAll =>
    case GetOne(_) =>
    case Create(b) =>
    case Modify(b) => UpdateKeepsIds(s, b);
    case Remove(k) =>
  }

  /** Ids stay pairwise unique under any sequence of requests. */
  lemma {:induction false} RunKeepsUnique(s: Store, qs: seq<Request>)
    requires UniqueIds(s)
    ensures UniqueIds(Run(s, qs))
    decreases |qs|
  {
    if |qs| > 0 {
      HandleKeepsUnique(s, qs[0]);
      RunKeepsUnique(Handle(s, qs[0]).store, qs[1..]);
    }
  }

  /** Every collection the handlers build from an empty one has unique,
      positive ids. */
  lemma ReachableHasInvariant(qs: seq<Request>)
    ensures UniqueIds(Run([], qs)) && PositiveIds(Run([], qs))
  {
    RunKeepsInvariant([], qs);
  }

  /** `DELETE /<id>` on a collection with unique ids removes exactly the one
      document carrying that id and keeps every other. */
  lemma DeleteRemovesExactlyOne(s: Store, productId: nat)
    requires UniqueIds(s)
    ensures var r := DeleteProduct(s, productId);
      r.reply.EmptyReply? ==>
        && |r.store| == |s| - 1
        && (forall j :: 0 <= j < |r.store| ==> Id(r.store[j]) != productId)
        && (forall j :: 0 <= j < |s| && Id(s[j]) != productId ==> s[j] in r.store)
        && (forall d :: d in r.store ==> d in s)
  {
  }

  /** When every id is below `top`, the next id is at most `top`, and it
      is `top` exactly when `top - 1` is an id or the collection is empty
      and `top` is 1. */
  lemma NextIdBelow(t: Store, top: int)
    requires forall j :: 0 <= j < |t| ==> Id(t[j]) < top
    ensures NextId(t) <= top || (|t| == 0 && top < 1)
    ensures NextId(t) == top <==>
      (exists j :: 0 <= j < |t| && Id(t[j]) == top - 1) || (|t| == 0 && top == 1)
  {
    if exists j :: 0 <= j < |t| && Id(t[j]) == top - 1 {
      var j :| 0 <= j < |t| && Id(t[j]) == top - 1;
      assert NextId(t) > Id(t[j]);
    }
  }

  /** Cutting a document of largest id out of a unique-id collection leaves
      only smaller ids, and takes no other id away. */
  lemma CutHighest(s: Store, i: nat)
    requires UniqueIds(s) && i < |s|
    requires forall j :: 0 <= j < |s| ==> Id(s[j]) <= Id(s[i])
    ensures var t := s[..i] + s[i + 1..];
      && |t| == |s| - 1
      && (forall j :: 0 <= j < |t| ==> Id(t[j]) < Id(s[i]))
      && ((exists j :: 0 <= j < |t| && Id(t[j]) == Id(s[i]) - 1) <==>
          (exists j :: 0 <= j < |s| && Id(s[j]) == Id(s[i]) - 1))
  {
    var t := s[..i] + s[i + 1..];
    RemoveAtIndices(s, i);
    forall j | 0 <= j < |t|
      ensures Id(t[j]) < Id(s[i])
    {
      if j < i {
        assert t[j] == s[j];
      } else {
        assert t[j] == s[j + 1];
      }
    }
    if exists j :: 0 <= j < |s| && Id(s[j]) == Id(s[i]) - 1 {
      var j :| 0 <= j < |s| && Id(s[j]) == Id(s[i]) - 1;
      if j < i {
        assert Id(t[j]) == Id(s[i]) - 1;
      } else {
        assert Id(t[j - 1]) == Id(s[i]) - 1;
      }
    }
  }

  /** Cutting out the product with the highest id lowers the next id to at
      most that id, and leaves it there exactly when the id one below was
      also taken, or nothing is left and the cut id was 1. */
  lemma DeleteHighestLowersNextId(s: Store)
    requires Invariant(s) && |s| > 0
    ensures var top := NextId(s) - 1;
      var t := DeleteProduct(s, top).store;
      && NextId(t) <= top
      && (NextId(t) == top <==>
            (exists j :: 0 <= j < |s| && Id(s[j]) == top - 1) || (|s| == 1 && top == 1))
  {
    var top := NextId(s) - 1;
    assert top >= 1;
    var t := DeleteProduct(s, top).store;
    assert DeleteProduct(s, top).reply.EmptyReply?;
    var i :| 0 <= i < |s| && Id(s[i]) == top && t == s[..i] + s[i + 1..];
    CutHighest(s, i);
    assert |t| == 0 <==> |s| == 1;
    NextIdBelow(t, top);
  }

  /** Deleting the product with the highest id and then adding one gives
      out an id no larger than the deleted one. It is exactly the deleted
      id when the collection also held the id one below it, or when the
      deleted product was the only one and had id 1: clients then reach the
      new product under the old product's id. */
  lemma DeleteHighestThenAddReusesId(s: Store, body: Body)
    requires Invariant(s) && |s| > 0 && Truthy(body)
    ensures var top := NextId(s) - 1;
      var t := DeleteProduct(s, top).store;
      var p := AddProduct(t, body).reply.product;
      && Id(p) <= top
      && (Id(p) == top <==>
            (exists j :: 0 <= j < |s| && Id(s[j]) == top - 1) || (|s| == 1 && top == 1))
  {
    var t := DeleteProduct(s, NextId(s) - 1).store;
    DeleteHighestLowersNextId(s);
    assert Id(AddProduct(t, body).reply.product) == NextId(t);
  }
}

=== FILE: view.dfy ===
/**
 The collection seen as a catalog keyed by product id, the way clients
 address it, and the handlers stated as operations on that catalog. When
 ids are unique the sequence and the catalog carry the same information.
 */
module CatalogView {
  import opened Document
  import opened Collection
  import opened Catalog
  import Invariants

  /** Product id to product. On a repeated id the later document wins,
      which never arises when ids are unique. */
  function View(s: Store): map<int, Doc>
    decreases |s|
  {
    if |s| == 0 then map[]
    else View(s[..|s| - 1])[Id(s[|s| - 1]) := s[|s| - 1]]
  }

  function IdSet(s: Store): set<int> {
    set j | 0 <= j < |s| :: Id(s[j])
  }

  /** The ids of a collection with one more document at the end. */
  lemma IdSetSnoc(s: Store)
    requires |s| > 0
    ensures IdSet(s) == IdSet(s[..|s| - 1]) + {Id(s[|s| - 1])}
  {
    var p := s[..|s| - 1];
    forall k | k in IdSet(s)
      ensures k in IdSet(p) + {Id(s[|s| - 1])}
    {
      var j :| 0 <= j < |s| && Id(s[j]) == k;
      if j < |p| {
        assert Id(p[j]) == k;
      }
    }
    forall k | k in IdSet(p)
      ensures k in IdSet(s)
    {
      var j :| 0 <= j < |p| && Id(p[j]) == k;
      assert Id(s[j]) == k;
    }
  }

  /** With unique ids the catalog holds exactly the ids of the collection,
      each mapped to the one document carrying it. */
  lemma {:induction false} ViewCharacterization(s: Store)
    requires UniqueIds(s)
    ensures View(s).Keys == IdSet(s)
    ensures forall j :: 0 <= j < |s| ==> View(s)[Id(s[j])] == s[j]
    decreases |s|
  {
    if |s| > 0 {
      var p, d := s[..|s| - 1], s[|s| - 1];
      assert forall j :: 0 <= j < |p| ==> p[j] == s[j];
      ViewCharacterization(p);
      IdSetSnoc(s);
    }
  }

  /** Two catalogs with the same keys and the same entries are equal. */
  lemma MapsAgree(v: map<int, Doc>, m: map<int, Doc>)
    requires v.Keys == m.Keys
    requires forall k :: k in m ==> v[k] == m[k]
    ensures v == m
  {
    forall k | k in v
      ensures v[k] == m[k]
    {
    }
    assert v == m;
  }

  /** A map holding each id of a unique-id collection with its document is
      that collection's catalog. */
  lemma ViewDetermined(s: Store, m: map<int, Doc>)
    requires UniqueIds(s)
    requires m.Keys == IdSet(s)
    requires forall j :: 0 <= j < |s| ==> m[Id(s[j])] == s[j]
    ensures View(s) == m
  {
    ViewCharacterization(s);
    var v := View(s);
    assert v.Keys == m.Keys;
    assert forall k :: k in m ==> v[k] == m[k] by {
      forall k | k in m
        ensures v[k] == m[k]
      {
        var j :| 0 <= j < |s| && Id(s[j]) == k;
        assert v[Id(s[j])] == s[j] == m[Id(s[j])];
      }
    }
    MapsAgree(v, m);
  }

  /** `GET /<id>` answers the catalog entry for the id, or 404. */
  lemma GetProductReadsView(s: Store, productId: nat)
    requires UniqueIds(s)
    ensures GetProduct(s, productId).reply ==
      if productId in View(s) then ProductReply(View(s)[productId]) else NotFound
  {
    ViewCharacterization(s);
    var r := GetProduct(s, productId);
    if r.reply.ProductReply? {
      var j :| 0 <= j < |s| && s[j] == r.reply.product;
    }
  }

  /** `GET /` lists exactly the catalog's products. */
  lemma GetProductsListsView(s: Store)
    requires UniqueIds(s)
    ensures var ps := GetProducts(s).reply.products;
      (set j | 0 <= j < |ps| :: ps[j]) == View(s).Values
  {
    ViewCharacterization(s);
    var ps := GetProducts(s).reply.products;
    forall d | d in View(s).Values
      ensures d in (set j | 0 <= j < |ps| :: ps[j])
    {
      var k :| k in View(s) && View(s)[k] == d;
      var j :| 0 <= j < |s| && Id(s[j]) == k;
      assert ps[j] == d;
    }
  }

  /** `POST /` adds one catalog entry under the next id; nothing else moves. */
  lemma AddProductExtendsView(s: Store, body: Body)
    requires Truthy(body)
    ensures var r := AddProduct(s, body);
      && NextId(s) !in View(s)
      && View(r.store) == View(s)[NextId(s) := r.reply.product]
  {
    var r := AddProduct(s, body);
    assert r.store[..|r.store| - 1] == s;
    ViewKeysAreIds(s);
  }

  /** Every key of the catalog is the id of some document. */
  lemma {:induction false} ViewKeysAreIds(s: Store)
    ensures forall k :: k in View(s) ==> exists j :: 0 <= j < |s| && Id(s[j]) == k
    decreases |s|
  {
    if |s| > 0 {
      var p := s[..|s| - 1];
      ViewKeysAreIds(p);
      assert forall j :: 0 <= j < |p| ==> p[j] == s[j];
    }
  }

  /** Replacing a document by one with the same id keeps the ids as they were. */
  lemma ReplaceKeepsIds(s: Store, i: nat, d: Doc)
    requires i < |s| && Id(d) == Id(s[i])
    ensures UniqueIds(s) ==> UniqueIds(s[i := d])
    ensures IdSet(s[i := d]) == IdSet(s)
  {
    var t := s[i := d];
    assert forall j :: 0 <= j < |t| ==> Id(t[j]) == Id(s[j]);
    forall k | k in IdSet(s)
      ensures k in IdSet(t)
    {
      var j :| 0 <= j < |s| && Id(s[j]) == k;
      assert Id(t[j]) == k;
    }
  }

  /** Replacing a document by one with the same id replaces that catalog entry. */
  lemma ViewAfterReplace(s: Store, i: nat, d: Doc)
    requires UniqueIds(s) && i < |s| && Id(d) == Id(s[i])
    ensures View(s[i := d]) == View(s)[Id(d) := d]
  {
    var t := s[i := d];
    var m := View(s)[Id(d) := d];
    ViewCharacterization(s);
    ReplaceKeepsIds(s, i, d);
    forall j | 0 <= j < |t|
      ensures m[Id(t[j])] == t[j]
    {
      if j != i {
        assert t[j] == s[j];
      }
    }
    ViewDetermined(t, m);
  }

  /** Cutting out a document removes its id from the id set. */
  lemma IdSetAfterRemove(s: Store, i: nat)
    requires UniqueIds(s) && i < |s|
    ensures IdSet(s[..i] + s[i + 1..]) == IdSet(s) - {Id(s[i])}
  {
    var t := s[..i] + s[i + 1..];
    RemoveAtIndices(s, i);
    forall k | k in IdSet(s) - {Id(s[i])}
      ensures k in IdSet(t)
    {
      var j :| 0 <= j < |s| && Id(s[j]) == k;
      if j < i {
        assert Id(t[j]) == k;
      } else {
        assert Id(t[j - 1]) == k;
      }
    }
    forall k | k in IdSet(t)
      ensures k in IdSet(s) - {Id(s[i])}
    {
      var j :| 0 <= j < |t| && Id(t[j]) == k;
      if j < i {
        assert t[j] == s[j];
      } else {
        assert t[j] == s[j + 1];
      }
    }
  }

  /** Cutting out a document removes its id from the catalog. */
  lemma ViewAfterRemove(s: Store, i: nat)
    requires UniqueIds(s) && i < |s|
    ensures View(s[..i] + s[i + 1..]) == View(s) - {Id(s[i])}
  {
    var t := s[..i] + s[i + 1..];
    var m := View(s) - {Id(s[i])};
    ViewCharacterization(s);
    IdSetAfterRemove(s, i);
    RemoveAtIndices(s, i);
    Invariants.RemoveAtKeepsUnique(s, i);
    forall j | 0 <= j < |t|
      ensures m[Id(t[j])] == t[j]
    {
      if j < i {
        assert t[j] == s[j];
      } else {
        assert t[j] == s[j + 1];
      }
    }
    ViewDetermined(t, m);
  }

  /** `PUT /` on a catalog id merges the body into that entry only;
      `PUT /` on an id outside the catalog answers 404 and leaves the
      catalog alone. */
  lemma UpdateProductMergesIntoView(s: Store, body: Body, productId: int)
    requires UniqueIds(s)
    requires Truthy(body) && IdField in body.fields && body.fields[IdField] == IntVal(productId)
    ensures var r := UpdateProduct(s, body);
      && (productId in View(s) ==>
            View(r.store) == View(s)[productId := SetFields(View(s)[productId], body.fields)])
      && (productId !in View(s) ==> r.reply == NotFound && View(r.store) == View(s))
  {
    ViewCharacterization(s);
    var r := UpdateProduct(s, body);
    var target := IntVal(productId);
    if productId in View(s) {
      var j :| 0 <= j < |s| && Id(s[j]) == productId;
      assert HasId(s[j], target);
      var i := FirstMatch(s, target).value;
      var merged := SetFields(s[i], body.fields);
      assert HasIntId(merged);
      assert r.store == UpdateOne(s, target, body.fields).store == s[i := merged];
      ViewAfterReplace(s, i, merged);
    } else {
      assert forall j :: 0 <= j < |s| ==> Id(s[j]) in IdSet(s);
    }
  }

  /** `DELETE /<id>` removes the id from the catalog; on a missing id the
      catalog stays as it was. */
  lemma DeleteProductShrinksView(s: Store, productId: nat)
    requires UniqueIds(s)
    ensures View(DeleteProduct(s, productId).store) == View(s) - {productId}
  {
    ViewCharacterization(s);
    var r := DeleteProduct(s, productId);
    if r.reply.EmptyReply? {
      var i :| 0 <= i < |s| && Id(s[i]) == productId && r.store == s[..i] + s[i + 1..];
      ViewAfterRemove(s, i);
    } else {
      assert productId !in IdSet(s);
    }
  }

  /** A product added by `POST /` is answered by `GET /<its id>`. */
  lemma AddThenGet(s: Store, body: Body)
    requires Truthy(body) && NextId(s) >= 0
    ensures var r := AddProduct(s, body);
      GetProduct(r.store, NextId(s)).reply == r.reply
  {
  }

  /** After `PUT /` succeeds, `GET /<id>` answers what `PUT /` answered. */
  lemma UpdateThenGet(s: Store, body: Body, productId: nat)
    requires Truthy(body) && IdField in body.fields && body.fields[IdField] == IntVal(productId)
    ensures var r := UpdateProduct(s, body);
      r.reply.ProductReply? ==> GetProduct(r.store, productId).reply == r.reply
  {
  }

  /** After `DELETE /<id>`, `GET /<id>` is 404 when ids are unique. */
  lemma DeleteThenGet(s: Store, productId: nat)
    requires UniqueIds(s)
    ensures GetProduct(DeleteProduct(s, productId).store, productId).reply == NotFound
  {
  }
}
